=== FILE: README.md ===
# Boids flocking step, modelled in Dafny

This project models the flocking core of a boids simulation: the `Vec2` arithmetic and
statistics helpers of `src/math.rs` and the per-boid update and flock sweep of
`src/boid.rs`. It works over exact `real` numbers in place of `f64`.

- A `Boid` has a position, a velocity, a radius and a hue in radians.
- Each tick, `update_all` walks the flock in index order and updates each boid in place.
  A boid sees every *other* boid within `visible_range`: the boids before it, chained
  with the boids after it.
- Updating a boid runs these steps in order:
  1. It drifts its hue toward the strictly larger neighbours (`adapt_color`).
  2. It adds the coherence, separation and alignment pulls.
  3. It clamps the speed to `max_speed`.
  4. It is nudged inward near the edges of the `SIZE` area (`keep_in_bounds`).
  5. It moves by `velocity * time_delta_ms * 0.01`.

Modules, one per source concern:

| module | file | models |
|---|---|---|
| `Wrappers` | `wrappers.dfy` | `Option`, the result type of the `Mean` and `WeightedMean` folds |
| `Angles` | `angles.dfy` | `smallest_angle_between`, which uses `rem_euclid` modulo `TAU` |
| `Vectors` | `vectors.dfy` | `Vec2`, its operators, `Sum`, `magnitude`, `clamp_magnitude` |
| `Stats` | `stats.dfy` | `Mean::mean` (Welford) at `f64` and at `Vec2`, and `WeightedMean::weighted_mean` at `Vec2` |
| `Config` | `config.dfy` | the `Settings` record, `Settings::default` and the `SIZE` constant |
| `Boids` | `boids.dfy` | `Boid`, `VisibleBoid`, and the `VisibleBoidIter` view |
| `Rules` | `rules.dfy` | coherence, separation, alignment, `adapt_color`, `keep_in_bounds`, `update_velocity` and `update` |
| `Flock` | `flock.dfy` | `update_all` |

Dafny has no square root on reals, so `f64::sqrt` enters the model as a parameter
`root: real -> real`. Wherever a result depends on it, the requirement `IsSqrt(root)`
states the only assumption made about it: it returns the exact non-negative square root of
every non-negative number, the value IEEE 754's correctly rounded `squareRoot` rounds. `PI` is `3.141592653589793`, the shortest decimal that rounds
to the same `f64` as Rust's `f64::consts::PI` literal `3.14159265358979323846264338327950288`,
and `TAU` is `2 * PI`. `f64::is_normal` on a count or a total weight becomes "is not zero".
Exact reals have no NaN, infinity or subnormal.

Three behaviours of the code are easy to misread; the model follows the code:

- **`separation`:** a neighbour counts when its distance is *at most* `min_distance`. The
  code skips only `distance > min_distance`.
- **`weighted_mean`:** it returns a value for any non-zero total weight, negative
  included. The code tests `is_normal`, not positivity.
- **`update_all`:** a boid sees the boids before it in their already-updated state. The
  code updates the slice in place while it walks it.

## Model

| member | source | states |
|---|---|---|
| `Angles.RemEuclidTau` | src/math.rs:14 | the Euclidean remainder modulo a full turn lies in `[0, TAU)` and differs from its argument by a whole number of turns |
| `Angles.SmallestAngleBetween` | src/math.rs:10-15 | the result lies in `[-PI, PI)` and differs from `target - source` by a whole number of turns |
| `Angles.WholeTurnsGap` | src/math.rs:14 | a whole number of turns strictly between `-TAU` and `TAU` is zero |
| `Angles.SmallestAngleUnique` | src/math.rs:10-15 | the result is the only angle in `[-PI, PI)` that is a whole number of turns away from `target - source` |
| `Angles.SmallestAngleToSelf` | src/math.rs:12-15 | the angle from a hue to itself is 0, and so is the angle to itself one full turn on |
| `Angles.WholeTurnsNeg` | src/math.rs:14 | the negation of a whole number of turns is a whole number of turns |
| `Angles.SmallestAngleAntisymmetric` | src/math.rs:12-15 | swapping source and target negates the angle, except at the half-turn `-PI` |
| `Vectors.VectorLaws` | src/math.rs:67-105 | `Sub` is `Add` of the negation, `Sub` then `Add` undo each other, a difference is the default vector exactly when the operands are equal, `v + (-v)` is the default vector, the default vector and `* 1` are identities, and negation keeps the squared magnitude |
| `Vectors.ScalarLaws` | src/math.rs:107-137 | dividing by a non-zero `k` undoes multiplying by `k`, and multiplication by a scalar distributes over `Add` |
| `Vectors.MulMagnitudeSquared` | src/math.rs:36-40 | the squared magnitude is never negative, and scaling by `k` scales it by `k * k` |
| `Vectors.Magnitude` | src/math.rs:46-48 | with a true square root the magnitude is never negative |
| `Vectors.NonZeroMagnitudeSquared` | src/math.rs:38-40 | a vector other than the default one has a positive squared magnitude |
| `Vectors.MagnitudeSign` | src/math.rs:38-48 | with a true square root the magnitude is never negative, and positive for any vector other than the default one |
| `Vectors.Sum` | src/math.rs:139-143 | the sum of no vectors is the default vector, and the sum of one vector is that vector |
| `Vectors.SumSnoc` | src/math.rs:139-143 | folding one more vector into the sum adds it to the sum |
| `Vectors.SumAppend` | src/math.rs:139-143 | the sum of nothing is the default vector, and the sum over a concatenation is the sum of the two sums |
| `Vectors.SumOfConstant` | src/math.rs:139-143 | the sum of `n` copies of `c` is `c * n` |
| `Vectors.WithinIffSquared` | src/math.rs:36-48 | the magnitude is a non-negative square root of the squared magnitude, and it is at most `bound` exactly when `bound >= 0` and the squared magnitude is at most `bound * bound` |
| `Vectors.WithinBySquares` | src/math.rs:36-48 | a squared magnitude within `bound * bound` gives a magnitude within a non-negative `bound` |
| `Vectors.ClampMagnitude` | src/math.rs:50-58 | a vector within `max` is returned unchanged; a longer one comes back with magnitude exactly `max`; the result is never longer than `max` or than the input |
| `Vectors.ClampWithin` | src/math.rs:50-58 | the clamped vector is within `max`, both squared and as a magnitude |
| `Vectors.ScaledToLength` | src/math.rs:53-54 | dividing by the length `mag` and then multiplying by `max` is scaling by `max / mag`, and the result has squared length `max * max` |
| `Vectors.ClampKeepsDirection` | src/math.rs:50-58 | the clamped vector is the input scaled by a factor in `[0, 1]`; the factor is below 1 when the input was too long and positive when `max` is |
| `Vectors.ClampLong` | src/math.rs:53-54 | a vector longer than `max` is scaled by a factor in `[0, 1)`, which is positive when `max` is |
| `Stats.RunningAverageStep` | src/math.rs:203-206 | one Welford step keeps "average times count equals the sum so far" |
| `Stats.Welford` | src/math.rs:202-207 | after folding `k` reals the count is `k` and the running average times `k` is the plain sum of the `k` items |
| `Stats.Mean` | src/math.rs:181-215 | `None` exactly when there are no items; otherwise the mean times the item count is the sum of the items |
| `Stats.TotalWithin` | src/math.rs:202-207 | `n` values in `[lo, hi)` sum to a total in `[n * lo, n * hi]`, strictly below `n * hi` when `n > 0` |
| `Stats.TotalOfNonNegative` | src/math.rs:168-171 | a total of non-negative values is non-negative, and zero exactly when every value is zero |
| `Stats.MeanWithin` | src/math.rs:202-214 | the mean of a non-empty sequence of values in `[lo, hi)` exists and lies in `[lo, hi)` |
| `Stats.WelfordVec` | src/math.rs:202-207 | the Welford fold over vectors: the count is the number of items, and the average scaled by the count is the `Sum` of the items |
| `Stats.MeanVec` | src/math.rs:181-215 | at `Vec2`: `None` exactly when there are no items; otherwise the mean scaled by the item count is their `Sum` |
| `Stats.MeanVecOfConstant` | src/math.rs:202-214 | the mean of one or more copies of `c` is `Some(c)` |
| `Stats.WeightedFoldSums` | src/math.rs:167-171 | the fold state is the plain `Sum` of the values scaled by their weights and the plain total of the weights |
| `Stats.WeightedMean` | src/math.rs:145-179 | `None` for no pairs, and `None` exactly when the total weight is zero; otherwise the mean scaled by the total weight is the weighted sum |
| `Stats.WeightedSumOfConstant` | src/math.rs:167-171 | when every value is `v`, the weighted sum is `v` times the total weight |
| `Stats.WeightedMeanOfConstant` | src/math.rs:167-178 | when every value is `v` and the total weight is non-zero, the weighted mean is `Some(v)`, whatever the individual weights |
| `Stats.WeightedMeanOfOne` | src/math.rs:167-178 | a single pair `(v, w)` with `w != 0` has weighted mean `Some(v)` |
| `Stats.WeightedFoldUniform` | src/math.rs:167-171 | with every weight equal to `w`, the weighted sum is `w` times the plain `Sum` of the values, and the total weight is `n * w` |
| `Stats.WeightedFoldStep` | src/math.rs:168-171 | one more pair of weight `w` keeps the uniform-weight relation between the fold and the plain sum |
| `Stats.WeightedMeanUniform` | src/math.rs:145-215 | with equal non-zero weights, the weighted mean of non-empty data equals the Welford mean of the values |
| `Boids.Others` | src/boid.rs:124-128 | the candidates for boid `i` are the boids before `i` followed by the boids after `i`, index by index, one fewer than the flock |
| `Boids.OthersContains` | src/boid.rs:124-128 | every boid at an index other than `i` is among boid `i`'s candidates |
| `Boids.Sight` | src/boid.rs:203-216 | a boid is in sight exactly when its distance is within range, and then comes with its offset from the viewer and that offset's magnitude |
| `Boids.View` | src/boid.rs:178-217 | each yielded item is a candidate with its offset from the viewer and that offset's magnitude, within range; a candidate is yielded exactly when its distance is within range, as many times as it occurs among the candidates; nothing else is yielded |
| `Boids.YieldsKeep` | src/boid.rs:203-215 | a candidate in sight, put ahead of what the remaining candidates yield, gives the view of all the candidates |
| `Boids.YieldsSkip` | src/boid.rs:203-208 | a candidate out of sight is skipped, and the rest's view is the view of all the candidates |
| `Boids.CountsKeep` | src/boid.rs:203-215 | a candidate in sight, put ahead of the rest's view, adds one to its own count and to no other |
| `Boids.CountsSkip` | src/boid.rs:203-208 | skipping a candidate out of sight keeps every count right: it is counted zero times |
| `Boids.Neighbours` | src/boid.rs:124-128 | boid `i`'s view is the view of the other boids from its position, and any boid at another index is in it exactly when it is within `visible_range` of boid `i` |
| `Boids.ViewBySquares` | src/boid.rs:203-208 | with a true square root, a candidate is seen exactly when the range is non-negative and its squared offset is within the squared range |
| `Boids.NeighboursSymmetric` | src/boid.rs:122-128 | in a flock, boid `j` is in boid `i`'s view exactly when boid `i` is in boid `j`'s view, for any two distinct indices |
| `Boids.ViewIsSymmetric` | src/boid.rs:203-208 | for one-candidate views: `b` is in `a`'s view exactly when `a` is in `b`'s view |
| `Rules.TotalWeightZero` | src/boid.rs:36-38 | the total weight `coherence` divides by, the sum of the neighbours' squared radii, is never negative, and it is zero exactly when every neighbour has radius zero |
| `Rules.Coherence` | src/boid.rs:34-41 | no pull when the view is empty or the total weight is zero |
| `Rules.CoherenceTowardsCommonPoint` | src/boid.rs:34-41 | neighbours that all stand at `p`, with a non-zero total weight, pull by `(p - position) * factor` |
| `Rules.CoherenceValue` | src/boid.rs:34-41 | with a non-zero total weight `W`, the pull times `W` is `factor` times the weighted sum of positions less `W` times the boid's position |
| `Rules.CoherenceOfOne` | src/boid.rs:34-41 | a single neighbour of non-zero radius pulls toward its own position |
| `Rules.Pushes` | src/boid.rs:45-52 | at most one push per neighbour, and no push at all exactly when every neighbour is farther than `min_distance` |
| `Rules.Separation` | src/boid.rs:43-55 | zero when every neighbour is farther than `min_distance` |
| `Rules.PushesAppend` | src/boid.rs:45-52 | the pushes of two concatenated views are the two push lists concatenated |
| `Rules.SeparationAdditive` | src/boid.rs:43-55 | the separation of two concatenated views is the sum of their separations |
| `Rules.SeparationOfOne` | src/boid.rs:43-55 | one neighbour at distance at most `min_distance` contributes `-offset * separation_factor`; a farther one contributes nothing |
| `Rules.SeparationIgnoresFar` | src/boid.rs:43-55 | removing a neighbour farther than `min_distance` from any place in the view leaves the separation unchanged |
| `Rules.Alignment` | src/boid.rs:57-62 | no pull when the view is empty |
| `Rules.AlignmentValue` | src/boid.rs:57-62 | with `n > 0` neighbours, the pull times `n` is `factor` times the sum of the neighbours' velocities less `n` times the boid's velocity |
| `Rules.AlignmentTowardsCommonVelocity` | src/boid.rs:57-62 | neighbours that all move with velocity `u` pull by `(u - velocity) * factor`, which is zero when `u` is already the boid's velocity |
| `Rules.HueOffsets` | src/boid.rs:66-72 | at most one offset per neighbour, each in `[-PI, PI)`, and none exactly when no neighbour is strictly larger |
| `Rules.HueOffsetsAppend` | src/boid.rs:66-72 | the offsets of two concatenated views are the two offset lists concatenated |
| `Rules.HueOffsetsOfOne` | src/boid.rs:66-72 | a strictly larger neighbour contributes exactly the shortest signed angle from the boid's hue to its own; any other neighbour contributes nothing |
| `Rules.AdaptColor` | src/boid.rs:64-77 | only the hue changes, and it stays put when no neighbour is strictly larger |
| `Rules.AdaptColorBounded` | src/boid.rs:64-77 | with a non-negative factor, one colour step moves the hue by at most `factor * PI` either way |
| `Rules.AxisNudge` | src/boid.rs:90-102 | the change on one axis: 0 between the thresholds, `+turn` below the low one, `-turn` above the high one, and 0 when both fire |
| `Rules.TurnSpeed` | src/boid.rs:87 | the turn speed is zero when the turn ratio is |
| `Rules.Low` | src/boid.rs:82 | for a margin in `[0, 1]` the low threshold lies inside the `SIZE` area |
| `Rules.High` | src/boid.rs:83 | the high threshold plus the low one is `SIZE`, and for a margin below one half the high threshold lies above the low one on both axes |
| `Rules.Nudge` | src/boid.rs:85-102 | on each axis the nudge is 0, plus the turn speed or minus it |
| `Rules.KeepInBounds` | src/boid.rs:79-105 | position, radius and hue stay; the velocity gains the per-axis nudge |
| `Rules.BoundaryNudgeSigns` | src/boid.rs:79-105 | with a margin below one half and a non-negative ratio, each axis is pushed up below the low threshold, down above the high one, and not at all in between; strictly so when the boid moves and the ratio is positive |
| `Rules.NudgeVanishes` | src/boid.rs:82-102 | there is no nudge when the turn ratio is zero, and none for a boid inside the thresholds on both axes |
| `Rules.TurnSpeedSign` | src/boid.rs:87 | the turn speed is never negative, and it is positive for a moving boid with a positive ratio |
| `Rules.AxisNudgeSign` | src/boid.rs:90-102 | with `lo < hi` and a non-negative turn: `+turn` below `lo`, `-turn` above `hi`, 0 in between |
| `Rules.Steered` | src/boid.rs:108-111 | with no neighbours the steered velocity is the old velocity |
| `Rules.UpdateVelocity` | src/boid.rs:107-113 | only the velocity changes, and the new speed is at most `max_speed`, both as a magnitude and squared |
| `Rules.Integrate` | src/boid.rs:119 | moving changes only the position |
| `Rules.Update` | src/boid.rs:115-120 | the radius is kept, and the final hue is the hue the colour drift chose |
| `Rules.UpdateMovesWithNewVelocity` | src/boid.rs:115-120 | the position advances by the final velocity, after the clamp and the nudge, times `time_delta_ms * 0.01` |
| `Rules.KeepInBoundsWithoutTurning` | src/boid.rs:79-105 | with a zero turn ratio, `keep_in_bounds` changes nothing |
| `Rules.LoneBoidCoasts` | src/boid.rs:107-120 | a boid with no neighbours inside the thresholds keeps its hue, takes its old velocity clamped to `max_speed`, and moves with that velocity |
| `Config.DefaultSettings` | src/settings.rs:28-43 | the default settings have a non-negative speed limit and turn ratio and a border margin in `[0, 0.5)`, so they meet what the update rules require |
| `Flock.StepAt` | src/boid.rs:124-130 | iteration `i` changes only boid `i`, keeps the flock's length and keeps boid `i`'s radius |
| `Flock.UpdateFrom` | src/boid.rs:122-132 | the sweep from index `i` keeps the length and every radius, and leaves the boids before `i` alone |
| `Flock.StepKeepsInPlace` | src/boid.rs:124-130 | stepping boid `i` keeps the earlier boids and their views, and updates boid `i` against the updated earlier boids and the untouched later ones |
| `Flock.UpdateAll` | src/boid.rs:122-132 | the loop computes the recursive sweep; it keeps the length and every radius; each boid `j` is updated against boids `..j` as already updated and boids `j+1..` as they were |

## Left out

- `Boid::new_random`, `Vec2::from_polar` and `Vec2::angle` are left out. They need a random number generator and `sin`, `cos` or `atan2`.
- `Boid::render` and `iter_shape_points` are left out. They build Yew HTML with string formatting and trigonometry.
- The `Simulation` component in `src/simulation.rs` is left out: its lifecycle, animation frames, random seeding and pause handling. Only `SIZE` is kept.
- `Settings::load`, `store`, `remove` and the serde derives are left out. They are browser storage and serialisation. The core only reads a `Settings` value; `Settings::default` is modelled as `Config.DefaultSettings`.
- IEEE-754 behaviour is left out: rounding, NaN, infinities and subnormals. `is_normal` becomes "is not zero", and `sqrt` becomes the parameter `root`.
- `Mean` and `WeightedMean` are generic in the source. They are modelled only at the types the core uses: `Mean` at `f64` and `Vec2`, `WeightedMean` at `Vec2`.
- Vectors.ClampMagnitude: requires `max >= 0`, the range `[0, max]` its doc comment presumes. A negative `max` is excluded in both of its cases: with a zero vector the source divides zero by zero and yields NaN, and with a non-zero vector it returns the vector reversed with length `|max|`, which the model does not cover.
- Rules.UpdateVelocity: requires `max_speed >= 0` because it clamps with `ClampMagnitude`; so do `Rules.Update`, `Flock.StepAt`, `Flock.UpdateFrom` and `Flock.UpdateAll`. A negative `max_speed`, for which the source reverses every non-zero velocity and sets its length to `|max_speed|` (a zero velocity becomes NaN), is not modelled. `Config.DefaultSettings` meets the requirement.
- Vectors.Vec2: `Div` requires a non-zero divisor, since exact reals have no infinities. Every division in the core is by a magnitude, a count or a total weight already known to be non-zero.
- Boids.View: the contract states which boids are yielded, not their order. Each step prepends the candidate it keeps, so the order is the candidates' order, but no lemma states it.
- Vectors.Vec2: the operators `Neg`, `Add`, `Sub`, `Mul` and `Div` carry no contracts of their own; `VectorLaws`, `ScalarLaws` and `MulMagnitudeSquared` state their laws.
- Rules.Separation: its own contract covers only the all-far case. `SeparationOfOne` and `SeparationAdditive` pin down the general value: `-offset * separation_factor`, summed over the near neighbours.
- Rules.Update: no speed bound is stated after the boundary nudge. The source clamps before `keep_in_bounds`, so the final speed may exceed `max_speed` by up to √2 times the turn speed.

=== FILE: angles.dfy ===
/**
 * Circular angle arithmetic of `src/math.rs`: the signed shortest angle between two
 * hues, computed with a Euclidean remainder modulo a full turn.
 */
module Angles {

  /**
   * Rust's `f64::consts::PI`: the shortest decimal that rounds to the same `f64` as the
   * source's literal `3.14159265358979323846264338327950288`.
   */
  const PI: real := 3.141592653589793

  /** A full turn, `f64::consts::TAU`. */
  const TAU: real := 2.0 * PI

  /** `d` is a whole number of full turns. */
  predicate WholeTurns(d: real) {
    (d / TAU).Floor as real * TAU == d
  }

  /** `f64::rem_euclid(x, TAU)`: the remainder that is never negative. */
  function RemEuclidTau(x: real): (r: real)
    ensures 0.0 <= r < TAU
    ensures WholeTurns(x - r)
  {
    var k := (x / TAU).Floor;
    assert (x - (x - TAU * k as real)) / TAU == k as real;
    x - TAU * k as real
  }

  /** The signed shortest angle from `source` to `target`, in `[-PI, PI)`. */
  function SmallestAngleBetween(source: real, target: real): (r: real)
    ensures -PI <= r < PI
    ensures WholeTurns((target - source) - r)
  {
    var d := target - source;
    RemEuclidTau(d + PI) - PI
  }

  /** Two whole-turn multiples that differ by less than a turn are the same multiple. */
  lemma {:induction false} WholeTurnsGap(d: real)
    requires WholeTurns(d)
    requires -TAU < d < TAU
    ensures d == 0.0
  {
    var k := (d / TAU).Floor;
    assert d == k as real * TAU;
    assert -1.0 < k as real < 1.0;
    assert k == 0;
  }

  /**
   * The result is the ONLY angle in `[-PI, PI)` that differs from `target - source`
   * by a whole number of turns.
   */
  lemma {:induction false} SmallestAngleUnique(source: real, target: real, a: real)
    requires -PI <= a < PI
    requires WholeTurns((target - source) - a)
    ensures a == SmallestAngleBetween(source, target)
  {
    var r := SmallestAngleBetween(source, target);
    var k1 := (((target - source) - r) / TAU).Floor;
    var k2 := (((target - source) - a) / TAU).Floor;
    assert (target - source) - r == k1 as real * TAU;
    assert (target - source) - a == k2 as real * TAU;
    var g := a - r;
    assert g == (k1 - k2) as real * TAU;
    assert ((k1 - k2) as real * TAU / TAU) == (k1 - k2) as real;
    assert WholeTurns(g);
    WholeTurnsGap(g);
  }

  /** An angle is no distance from itself, nor from itself one full turn on. */
  lemma {:induction false} SmallestAngleToSelf(a: real)
    ensures SmallestAngleBetween(a, a) == 0.0
    ensures SmallestAngleBetween(a, a + TAU) == 0.0
  {
    assert (0.0 / TAU).Floor == 0;
    SmallestAngleUnique(a, a, 0.0);
    assert (TAU / TAU).Floor == 1;
    SmallestAngleUnique(a, a + TAU, 0.0);
  }

  /** The negation of a whole number of turns is one too. */
  lemma {:induction false} WholeTurnsNeg(d: real)
    requires WholeTurns(d)
    ensures WholeTurns(-d)
  {
    var k := (d / TAU).Floor;
    assert d == k as real * TAU;
    assert -d / TAU == (-k) as real;
    assert (-d / TAU).Floor == -k;
  }

  /** Swapping source and target negates the angle, except at the half-turn `-PI`. */
  lemma {:induction false} SmallestAngleAntisymmetric(source: real, target: real)
    requires SmallestAngleBetween(source, target) != -PI
    ensures SmallestAngleBetween(target, source) == -SmallestAngleBetween(source, target)
  {
    var r := SmallestAngleBetween(source, target);
    WholeTurnsNeg((target - source) - r);
    assert -((target - source) - r) == (source - target) - (-r);
    SmallestAngleUnique(target, source, -r);
  }
}

=== FILE: boids.dfy ===
/**
 * The `Boid` record of `src/boid.rs` and the visible-neighbour view `VisibleBoidIter`:
 * every other boid (the slice before it chained with the slice after it) whose distance
 * is within the visible range, each paired with its offset and distance.
 */
module Boids {
  import opened Wrappers
  import opened Vectors

  /** One agent: position, velocity, radius (fixed at creation) and hue in radians. */
  datatype Boid = Boid(position: Vec2, velocity: Vec2, radius: real, hue: real)

  /** `VisibleBoid`: a neighbour with its offset from the viewer and that offset's length. */
  datatype VisibleBoid = VisibleBoid(boid: Boid, offset: Vec2, distance: real)

  /**
   * The candidates `VisibleBoidIter::new` is given for boid `i`: `before ++ after` of the
   * split at `i`, that is every boid except index `i`, in index order.
   */
  function Others(boids: seq<Boid>, i: nat): (cs: seq<Boid>)
    requires i < |boids|
    ensures |cs| == |boids| - 1
    ensures forall k :: 0 <= k < i ==> cs[k] == boids[k]
    ensures forall k :: i <= k < |cs| ==> cs[k] == boids[k + 1]
  {
    boids[..i] + boids[i + 1..]
  }

  /** The closure of `VisibleBoidIter::next`: `other` as seen from `position`, if within `range`. */
  function Sight(other: Boid, position: Vec2, range: real, root: real -> real): (r: Option<VisibleBoid>)
    ensures r.Some? <==> Magnitude(other.position.Sub(position), root) <= range
    ensures r.Some? ==> r.value.boid == other && r.value.offset == other.position.Sub(position)
    ensures r.Some? ==> r.value.distance == Magnitude(r.value.offset, root)
  {
    var offset := other.position.Sub(position);
    var distance := Magnitude(offset, root);
    if distance > range then None else Some(VisibleBoid(other, offset, distance))
  }

  /** Every boid at another index is among the candidates. */
  lemma {:induction false} OthersContains(boids: seq<Boid>, i: nat)
    requires i < |boids|
    ensures forall j :: 0 <= j < |boids| && j != i ==> boids[j] in Others(boids, i)
  {
    var cs := Others(boids, i);
    forall j | 0 <= j < |boids| && j != i
      ensures boids[j] in cs
    {
      if j < i {
        assert cs[j] == boids[j];
      } else {
        assert cs[j - 1] == boids[j];
      }
    }
  }

  /** The boids of a view, in order. */
  function Seen(view: seq<VisibleBoid>): (bs: seq<Boid>)
    ensures |bs| == |view|
    ensures forall k :: 0 <= k < |view| ==> bs[k] == view[k].boid
  {
    seq(|view|, k requires 0 <= k < |view| => view[k].boid)
  }

  /**
   * `r` is everything the iterator yields over `candidates`, in order: each item carries
   * a candidate, its offset and its distance, the distance is within `range`, and a
   * candidate is yielded exactly when its distance is within `range`, as often as it
   * occurs among the candidates.
   */
  ghost predicate Yields(r: seq<VisibleBoid>, candidates: seq<Boid>, position: Vec2, range: real, root: real -> real) {
    && |r| <= |candidates|
    && (forall k :: 0 <= k < |r| ==>
          && r[k].boid in candidates
          && r[k].offset == r[k].boid.position.Sub(position)
          && r[k].distance == Magnitude(r[k].offset, root)
          && r[k].distance <= range)
    && (forall c :: c in candidates ==>
          (c in Seen(r) <==> Magnitude(c.position.Sub(position), root) <= range))
    && Counts(r, candidates, position, range, root)
  }

  /** Every boid within `range` is yielded as often as it occurs among the candidates; no other boid is. */
  ghost predicate Counts(r: seq<VisibleBoid>, candidates: seq<Boid>, position: Vec2, range: real, root: real -> real) {
    forall c :: multiset(Seen(r))[c] ==
      if Magnitude(c.position.Sub(position), root) <= range then multiset(candidates)[c] else 0
  }

  /** `VisibleBoidIter` run to the end over `candidates`, as seen from `position`. */
  function View(candidates: seq<Boid>, position: Vec2, range: real, root: real -> real): (r: seq<VisibleBoid>)
    ensures Yields(r, candidates, position, range, root)
    decreases |candidates|
  {
    if |candidates| == 0 then []
    else
      var rest := View(candidates[1..], position, range, root);
      match Sight(candidates[0], position, range, root)
      case Some(v) =>
        YieldsKeep(rest, candidates, v, position, range, root);
        [v] + rest
      case None =>
        YieldsSkip(rest, candidates, position, range, root);
        rest
  }

  /** A candidate in sight, yielded ahead of what the rest yields. */
  lemma {:induction false} YieldsKeep(rest: seq<VisibleBoid>, candidates: seq<Boid>, v: VisibleBoid, position: Vec2, range: real, root: real -> real)
    requires |candidates| > 0
    requires Sight(candidates[0], position, range, root) == Some(v)
    requires Yields(rest, candidates[1..], position, range, root)
    ensures Yields([v] + rest, candidates, position, range, root)
  {
    assert forall c :: c in candidates ==> c == candidates[0] || c in candidates[1..];
    assert Seen([v] + rest) == [candidates[0]] + Seen(rest);
    CountsKeep(rest, candidates, v, position, range, root);
  }

  /** The multiplicities, when the first candidate is in sight. */
  lemma {:induction false} CountsKeep(rest: seq<VisibleBoid>, candidates: seq<Boid>, v: VisibleBoid, position: Vec2, range: real, root: real -> real)
    requires |candidates| > 0
    requires v.boid == candidates[0]
    requires Magnitude(candidates[0].position.Sub(position), root) <= range
    requires Counts(rest, candidates[1..], position, range, root)
    ensures Counts([v] + rest, candidates, position, range, root)
  {
    assert Seen([v] + rest) == [candidates[0]] + Seen(rest);
    assert candidates == [candidates[0]] + candidates[1..];
  }

  /** A candidate out of sight, skipped. */
  lemma {:induction false} YieldsSkip(rest: seq<VisibleBoid>, candidates: seq<Boid>, position: Vec2, range: real, root: real -> real)
    requires |candidates| > 0
    requires Sight(candidates[0], position, range, root).None?
    requires Yields(rest, candidates[1..], position, range, root)
    ensures Yields(rest, candidates, position, range, root)
  {
    assert forall c :: c in candidates ==> c == candidates[0] || c in candidates[1..];
    CountsSkip(rest, candidates, position, range, root);
  }

  /** The multiplicities, when the first candidate is out of sight. */
  lemma {:induction false} CountsSkip(rest: seq<VisibleBoid>, candidates: seq<Boid>, position: Vec2, range: real, root: real -> real)
    requires |candidates| > 0
    requires Magnitude(candidates[0].position.Sub(position), root) > range
    requires Counts(rest, candidates[1..], position, range, root)
    ensures Counts(rest, candidates, position, range, root)
  {
    assert candidates == [candidates[0]] + candidates[1..];
  }

  /**
   * The view boid `i` of the flock has: `VisibleBoidIter::new(before, after, position, range)`.
   * Every other boid of the flock is in it exactly when it is within `range` of boid `i`.
   */
  function Neighbours(boids: seq<Boid>, i: nat, range: real, root: real -> real): (r: seq<VisibleBoid>)
    requires i < |boids|
    ensures Yields(r, Others(boids, i), boids[i].position, range, root)
    ensures forall j :: 0 <= j < |boids| && j != i ==>
      (boids[j] in Seen(r) <==> Magnitude(boids[j].position.Sub(boids[i].position), root) <= range)
  {
    OthersContains(boids, i);
    View(Others(boids, i), boids[i].position, range, root)
  }

  /**
   * With a true square root, a candidate is seen exactly when the range is not negative and
   * its squared offset is within the squared range.
   */
  lemma {:induction false} ViewBySquares(candidates: seq<Boid>, position: Vec2, range: real, root: real -> real, c: Boid)
    requires IsSqrt(root)
    requires c in candidates
    ensures c in Seen(View(candidates, position, range, root)) <==>
      0.0 <= range && c.position.Sub(position).MagnitudeSquared() <= range * range
  {
    WithinIffSquared(c.position.Sub(position), root, range);
  }

  /** In a flock, seeing is mutual: boid `j` is in boid `i`'s view exactly when `i` is in `j`'s. */
  lemma {:induction false} NeighboursSymmetric(boids: seq<Boid>, i: nat, j: nat, range: real, root: real -> real)
    requires i < |boids| && j < |boids| && i != j
    ensures boids[j] in Seen(Neighbours(boids, i, range, root)) <==> boids[i] in Seen(Neighbours(boids, j, range, root))
  {
    var d := boids[j].position.Sub(boids[i].position);
    VectorLaws(d, Zero);
    assert d.Neg() == boids[i].position.Sub(boids[j].position);
  }

  /** Seeing is mutual: `b` is in the one-candidate view of `a` exactly when `a` is in that of `b`. */
  lemma {:induction false} ViewIsSymmetric(a: Boid, b: Boid, range: real, root: real -> real)
    ensures b in Seen(View([b], a.position, range, root)) <==> a in Seen(View([a], b.position, range, root))
  {
    VectorLaws(b.position.Sub(a.position), Zero);
    assert b.position.Sub(a.position).Neg() == a.position.Sub(b.position);
  }
}

=== FILE: config.dfy ===
/** The tunable parameters of `src/settings.rs` and the simulation-area size of `src/simulation.rs`. */
module Config {
  import opened Vectors

  /** `Settings`: a plain record; the core only reads it. Distances and factors are reals. */
  datatype Settings = Settings(
    boids: nat,
    visible_range: real,
    min_distance: real,
    max_speed: real,
    cohesion_factor: real,
    separation_factor: real,
    alignment_factor: real,
    turn_speed_ratio: real,
    border_margin: real,
    color_adapt_factor: real
  )

  /**
   * `Settings::default`. The defaults meet what the rules ask of settings: a non-negative
   * speed limit and turn ratio, and a border margin in `[0, 0.5)`, so the inner rectangle
   * is not empty.
   */
  function DefaultSettings(): (s: Settings)
    ensures 0.0 <= s.max_speed && 0.0 <= s.turn_speed_ratio
    ensures 0.0 <= s.border_margin < 0.5
  {
    Settings(
      boids := 300,
      visible_range := 80.0,
      min_distance := 15.0,
      max_speed := 20.0,
      cohesion_factor := 0.05,
      separation_factor := 0.6,
      alignment_factor := 0.15,
      turn_speed_ratio := 0.25,
      border_margin := 0.1,
      color_adapt_factor := 0.05
    )
  }

  /** `SIZE`: the width and height of the simulation area. */
  const SIZE: Vec2 := Vec2(1600.0, 1000.0)
}

=== FILE: flock.dfy ===
/**
 * `Boid::update_all`: the boids are updated one after another, in index order and in
 * place, so boid `i` sees the boids before it already updated and the boids after it
 * not yet updated.
 */
module Flock {
  import opened Vectors
  import opened Config
  import opened Boids
  import opened Rules

  /**
   * One iteration of the loop: boid `i` is updated against the view of every other boid
   * as the flock stands now; nothing else changes.
   */
  function StepAt(s: Settings, boids: seq<Boid>, i: nat, dt: real, root: real -> real): (r: seq<Boid>)
    requires i < |boids|
    requires 0.0 <= s.max_speed
    requires IsSqrt(root)
    ensures |r| == |boids|
    ensures forall j :: 0 <= j < |boids| && j != i ==> r[j] == boids[j]
    ensures r[i].radius == boids[i].radius
  {
    boids[i := Update(boids[i], s, Neighbours(boids, i, s.visible_range, root), dt, root)]
  }

  /** The loop run from index `i` to the end, as a recursive reference definition. */
  function UpdateFrom(s: Settings, boids: seq<Boid>, i: nat, dt: real, root: real -> real): (r: seq<Boid>)
    requires i <= |boids|
    requires 0.0 <= s.max_speed
    requires IsSqrt(root)
    ensures |r| == |boids|
    ensures forall j :: 0 <= j < i ==> r[j] == boids[j]
    ensures forall j :: 0 <= j < |boids| ==> r[j].radius == boids[j].radius
    decreases |boids| - i
  {
    if i == |boids| then boids else UpdateFrom(s, StepAt(s, boids, i, dt, root), i + 1, dt, root)
  }

  /** Equal suffixes from `i` agree at `i` and from `i + 1` on. */
  lemma {:induction false} SuffixStep(a: seq<Boid>, b: seq<Boid>, i: nat)
    requires i < |a| == |b|
    requires a[i..] == b[i..]
    ensures a[i] == b[i]
    ensures a[i + 1..] == b[i + 1..]
  {
    assert a[i] == a[i..][0];
    assert a[i + 1..] == a[i..][1..];
  }

  /**
   * Boid `j` of `r` is boid `j` of `boids` updated against the boids before it as they
   * are in `r` and the boids after it as they are in `boids`.
   */
  predicate UpdatedInPlace(s: Settings, boids: seq<Boid>, r: seq<Boid>, j: nat, dt: real, root: real -> real)
    requires j < |boids| == |r|
    requires 0.0 <= s.max_speed
    requires IsSqrt(root)
  {
    r[j] == Update(boids[j], s, View(r[..j] + boids[j + 1..], boids[j].position, s.visible_range, root), dt, root)
  }

  /**
   * Stepping boid `i` of a partly swept flock extends the swept prefix by one: the
   * earlier boids keep their state and their views, and boid `i` is updated in place.
   */
  lemma {:induction false} StepKeepsInPlace(s: Settings, boids: seq<Boid>, r: seq<Boid>, i: nat, dt: real, root: real -> real)
    requires i < |r| == |boids|
    requires 0.0 <= s.max_speed
    requires IsSqrt(root)
    requires r[i] == boids[i] && r[i + 1..] == boids[i + 1..]
    requires forall j :: 0 <= j < i ==> UpdatedInPlace(s, boids, r, j, dt, root)
    ensures forall j :: 0 <= j <= i ==> UpdatedInPlace(s, boids, StepAt(s, r, i, dt, root), j, dt, root)
  {
    var next := StepAt(s, r, i, dt, root);
    forall j | 0 <= j < i
      ensures UpdatedInPlace(s, boids, next, j, dt, root)
    {
      assert UpdatedInPlace(s, boids, r, j, dt, root);
      assert next[..j] == r[..j];
    }
    assert next[..i] == r[..i];
  }

  /**
   * `update_all`: the result has as many boids as the input, every radius is kept, and
   * each boid is updated in place, in index order, so that it sees the boids before it
   * already updated and the boids after it not yet updated.
   */
  method UpdateAll(s: Settings, boids: seq<Boid>, dt: real, root: real -> real) returns (r: seq<Boid>)
    requires 0.0 <= s.max_speed
    requires IsSqrt(root)
    ensures r == UpdateFrom(s, boids, 0, dt, root)
    ensures |r| == |boids|
    ensures forall j :: 0 <= j < |r| ==> r[j].radius == boids[j].radius
    ensures forall j :: 0 <= j < |r| ==> UpdatedInPlace(s, boids, r, j, dt, root)
  {
    r := boids;
    var i := 0;
    while i < |r|
      invariant 0 <= i <= |r| == |boids|
      invariant UpdateFrom(s, r, i, dt, root) == UpdateFrom(s, boids, 0, dt, root)
      invariant r[i..] == boids[i..]
      invariant forall j :: 0 <= j < i ==> UpdatedInPlace(s, boids, r, j, dt, root)
    {
      SuffixStep(r, boids, i);
      StepKeepsInPlace(s, boids, r, i, dt, root);
      r := StepAt(s, r, i, dt, root);
      i := i + 1;
    }
  }
}

=== FILE: rules.dfy ===
/**
 * The per-boid update of `src/boid.rs`: colour drift, the three steering rules
 * (coherence, separation, alignment), the speed clamp, the boundary nudge and the
 * position integration.
 */
module Rules {
  import opened Wrappers
  import opened Angles
  import opened Vectors
  import opened Stats
  import opened Config
  import opened Boids

  /** A neighbour's position, weighted by its squared radius: larger boids pull harder. */
  function PositionWeight(v: VisibleBoid): (Vec2, real) {
    (v.boid.position, v.boid.radius * v.boid.radius)
  }

  /** The pairs `coherence` hands to `weighted_mean`, one per neighbour, in view order. */
  function PositionWeights(view: seq<VisibleBoid>): (ps: seq<(Vec2, real)>)
    ensures |ps| == |view|
    ensures forall k :: 0 <= k < |view| ==> ps[k] == PositionWeight(view[k])
  {
    seq(|view|, k requires 0 <= k < |view| => PositionWeight(view[k]))
  }

  /**
   * `coherence`: steer toward the radius-weighted centre of the neighbours; no pull when
   * there is no neighbour or the total weight is zero.
   */
  function Coherence(b: Boid, view: seq<VisibleBoid>, factor: real): (r: Vec2)
    ensures |view| == 0 ==> r == Zero
    ensures WeightedFold(PositionWeights(view)).1 == 0.0 ==> r == Zero
  {
    match WeightedMean(PositionWeights(view))
    case Some(mean) => mean.Sub(b.position).Mul(factor)
    case None => Zero
  }

  /**
   * The total weight `coherence` divides by is never negative, and it is zero exactly when
   * every neighbour has radius zero; so the zero-weight case of `Coherence` is a view of
   * zero-radius boids.
   */
  lemma {:induction false} TotalWeightZero(view: seq<VisibleBoid>)
    ensures 0.0 <= WeightedFold(PositionWeights(view)).1
    ensures WeightedFold(PositionWeights(view)).1 == 0.0 <==>
      forall k :: 0 <= k < |view| ==> view[k].boid.radius == 0.0
  {
    var ps := PositionWeights(view);
    var ws := Weights(ps);
    WeightedFoldSums(ps);
    forall k | 0 <= k < |view|
      ensures 0.0 <= ws[k]
      ensures ws[k] == 0.0 <==> view[k].boid.radius == 0.0
    {
      var r := view[k].boid.radius;
      assert ws[k] == r * r;
      if r != 0.0 {
        calc {
          ws[k];
          r * r;
        > { SquarePositive(r); }
          0.0;
        }
      } else {
        assert ws[k] == 0.0;
      }
    }
    TotalOfNonNegative(ws);
  }

  /** Neighbours that all stand at `p` (with some weight) pull straight toward `p`. */
  lemma {:induction false} CoherenceTowardsCommonPoint(b: Boid, view: seq<VisibleBoid>, factor: real, p: Vec2)
    requires forall k :: 0 <= k < |view| ==> view[k].boid.position == p
    requires WeightedFold(PositionWeights(view)).1 != 0.0
    ensures Coherence(b, view, factor) == p.Sub(b.position).Mul(factor)
  {
    WeightedMeanOfConstant(PositionWeights(view), p);
  }

  /**
   * In general, with `W` the total weight (the sum of the squared radii) and `S` the sum of
   * the positions scaled by their weights, the pull times `W` is `factor * (S - W * position)`
   * whenever `W` is not zero.
   */
  lemma {:induction false} CoherenceValue(b: Boid, view: seq<VisibleBoid>, factor: real)
    requires Total(Weights(PositionWeights(view))) != 0.0
    ensures var ps := PositionWeights(view); var w := Total(Weights(ps));
      Coherence(b, view, factor).Mul(w) == Sum(Products(ps)).Sub(b.position.Mul(w)).Mul(factor)
  {
    var ps := PositionWeights(view);
    WeightedFoldSums(ps);
    var w := WeightedFold(ps).1;
    MeanOffsetTimesCount(WeightedMean(ps).value, b.position, factor, w);
  }

  /** Scaling the pull `factor * (m - p)` by `n` is the pull between `n * m` and `n * p`. */
  lemma {:induction false} MeanOffsetTimesCount(m: Vec2, p: Vec2, factor: real, n: real)
    ensures m.Sub(p).Mul(factor).Mul(n) == m.Mul(n).Sub(p.Mul(n)).Mul(factor)
  {
    assert (m.x - p.x) * factor * n == (m.x * n - p.x * n) * factor;
    assert (m.y - p.y) * factor * n == (m.y * n - p.y * n) * factor;
  }

  /** A single neighbour of non-zero radius pulls straight toward its own position. */
  lemma {:induction false} CoherenceOfOne(b: Boid, v: VisibleBoid, factor: real)
    requires v.boid.radius != 0.0
    ensures Coherence(b, [v], factor) == v.boid.position.Sub(b.position).Mul(factor)
  {
    var ps := PositionWeights([v]);
    assert ps[0] == PositionWeight(v);
    assert ps == [PositionWeight(v)];
    calc {
      PositionWeight(v).1;
      v.boid.radius * v.boid.radius;
    > { SquarePositive(v.boid.radius); }
      0.0;
    }
    WeightedMeanOfOne(v.boid.position, PositionWeight(v).1);
  }

  /** The push of each neighbour within `minDistance`: its offset reversed, in view order. */
  function Pushes(view: seq<VisibleBoid>, minDistance: real): (r: seq<Vec2>)
    ensures |r| <= |view|
    ensures |r| == 0 <==> forall k :: 0 <= k < |view| ==> view[k].distance > minDistance
    decreases |view|
  {
    if |view| == 0 then []
    else
      var rest := Pushes(view[1..], minDistance);
      assert forall k :: 1 <= k < |view| ==> view[k] == view[1..][k - 1];
      (if view[0].distance > minDistance then [] else [view[0].offset.Neg()]) + rest
  }

  /** `separation`: the summed pushes, scaled by the separation factor. */
  function Separation(view: seq<VisibleBoid>, s: Settings): (r: Vec2)
    ensures (forall k :: 0 <= k < |view| ==> view[k].distance > s.min_distance) ==> r == Zero
  {
    Sum(Pushes(view, s.min_distance)).Mul(s.separation_factor)
  }

  lemma {:induction false} PushesAppend(a: seq<VisibleBoid>, c: seq<VisibleBoid>, minDistance: real)
    ensures Pushes(a + c, minDistance) == Pushes(a, minDistance) + Pushes(c, minDistance)
    decreases |a|
  {
    if |a| > 0 {
      var head := if a[0].distance > minDistance then [] else [a[0].offset.Neg()];
      assert (a + c)[0] == a[0];
      assert (a + c)[1..] == a[1..] + c;
      assert Pushes(a + c, minDistance) == head + Pushes(a[1..] + c, minDistance);
      assert Pushes(a, minDistance) == head + Pushes(a[1..], minDistance);
      PushesAppend(a[1..], c, minDistance);
      assert head + (Pushes(a[1..], minDistance) + Pushes(c, minDistance))
          == (head + Pushes(a[1..], minDistance)) + Pushes(c, minDistance);
    } else {
      assert a + c == c;
    }
  }

  /** Separation over two groups of neighbours is the sum of their separations. */
  lemma {:induction false} SeparationAdditive(a: seq<VisibleBoid>, c: seq<VisibleBoid>, s: Settings)
    ensures Separation(a + c, s) == Separation(a, s).Add(Separation(c, s))
  {
    PushesAppend(a, c, s.min_distance);
    SumAppend(Pushes(a, s.min_distance), Pushes(c, s.min_distance));
    ScalarLaws(Sum(Pushes(a, s.min_distance)), Sum(Pushes(c, s.min_distance)), s.separation_factor);
  }

  /** A neighbour at distance at most `min_distance` contributes its reversed offset times the factor. */
  lemma {:induction false} SeparationOfOne(v: VisibleBoid, s: Settings)
    ensures v.distance <= s.min_distance ==> Separation([v], s) == v.offset.Neg().Mul(s.separation_factor)
    ensures s.min_distance < v.distance ==> Separation([v], s) == Zero
  {
    assert [v][1..] == [];
    if v.distance <= s.min_distance {
      assert Pushes([v], s.min_distance) == [v.offset.Neg()];
      assert [v.offset.Neg()][..0] == [];
      assert Sum([v.offset.Neg()]) == v.offset.Neg();
    }
  }

  /** A neighbour farther than `min_distance` changes nothing, wherever it sits in the view. */
  lemma {:induction false} SeparationIgnoresFar(a: seq<VisibleBoid>, far: VisibleBoid, c: seq<VisibleBoid>, s: Settings)
    requires far.distance > s.min_distance
    ensures Separation(a + [far] + c, s) == Separation(a + c, s)
  {
    SeparationAdditive(a + [far], c, s);
    SeparationAdditive(a, [far], s);
    SeparationOfOne(far, s);
    SeparationAdditive(a, c, s);
  }

  /** The neighbours' velocities, in view order. */
  function Velocities(view: seq<VisibleBoid>): (vs: seq<Vec2>)
    ensures |vs| == |view|
    ensures forall k :: 0 <= k < |view| ==> vs[k] == view[k].boid.velocity
  {
    seq(|view|, k requires 0 <= k < |view| => view[k].boid.velocity)
  }

  /** `alignment`: steer toward the mean neighbour velocity; no pull without neighbours. */
  function Alignment(b: Boid, view: seq<VisibleBoid>, factor: real): (r: Vec2)
    ensures |view| == 0 ==> r == Zero
  {
    match MeanVec(Velocities(view))
    case Some(mean) => mean.Sub(b.velocity).Mul(factor)
    case None => Zero
  }

  /**
   * In general, with `n` neighbours, the pull times `n` is `factor * (S - n * velocity)` for
   * `S` the sum of the neighbours' velocities.
   */
  lemma {:induction false} AlignmentValue(b: Boid, view: seq<VisibleBoid>, factor: real)
    requires 0 < |view|
    ensures var n := |view| as real;
      Alignment(b, view, factor).Mul(n) == Sum(Velocities(view)).Sub(b.velocity.Mul(n)).Mul(factor)
  {
    MeanOffsetTimesCount(MeanVec(Velocities(view)).value, b.velocity, factor, |view| as real);
  }

  /**
   * Neighbours that all move with velocity `u` pull toward `u`; when `u` is already the
   * boid's own velocity there is no pull at all.
   */
  lemma {:induction false} AlignmentTowardsCommonVelocity(b: Boid, view: seq<VisibleBoid>, factor: real, u: Vec2)
    requires 0 < |view|
    requires forall k :: 0 <= k < |view| ==> view[k].boid.velocity == u
    ensures Alignment(b, view, factor) == u.Sub(b.velocity).Mul(factor)
    ensures u == b.velocity ==> Alignment(b, view, factor) == Zero
  {
    MeanVecOfConstant(Velocities(view), u);
  }

  /** The hue offsets toward the strictly larger neighbours, in view order, each in `[-PI, PI)`. */
  function HueOffsets(b: Boid, view: seq<VisibleBoid>): (r: seq<real>)
    ensures |r| <= |view|
    ensures forall k :: 0 <= k < |r| ==> -PI <= r[k] < PI
    ensures |r| == 0 <==> forall k :: 0 <= k < |view| ==> view[k].boid.radius <= b.radius
    decreases |view|
  {
    if |view| == 0 then []
    else
      var rest := HueOffsets(b, view[1..]);
      assert forall k :: 1 <= k < |view| ==> view[k] == view[1..][k - 1];
      (if view[0].boid.radius > b.radius then [SmallestAngleBetween(b.hue, view[0].boid.hue)] else []) + rest
  }

  /** The offsets over two groups of neighbours are those of the first group, then the second's. */
  lemma {:induction false} HueOffsetsAppend(b: Boid, a: seq<VisibleBoid>, c: seq<VisibleBoid>)
    ensures HueOffsets(b, a + c) == HueOffsets(b, a) + HueOffsets(b, c)
    decreases |a|
  {
    if |a| > 0 {
      var head := if a[0].boid.radius > b.radius then [SmallestAngleBetween(b.hue, a[0].boid.hue)] else [];
      assert (a + c)[0] == a[0];
      assert (a + c)[1..] == a[1..] + c;
      assert HueOffsets(b, a + c) == head + HueOffsets(b, a[1..] + c);
      assert HueOffsets(b, a) == head + HueOffsets(b, a[1..]);
      HueOffsetsAppend(b, a[1..], c);
      assert head + (HueOffsets(b, a[1..]) + HueOffsets(b, c))
          == (head + HueOffsets(b, a[1..])) + HueOffsets(b, c);
    } else {
      assert a + c == c;
    }
  }

  /**
   * A strictly larger neighbour contributes the shortest signed angle from the boid's hue to
   * its own; any other neighbour contributes nothing.
   */
  lemma {:induction false} HueOffsetsOfOne(b: Boid, v: VisibleBoid)
    ensures v.boid.radius > b.radius ==> HueOffsets(b, [v]) == [SmallestAngleBetween(b.hue, v.boid.hue)]
    ensures v.boid.radius <= b.radius ==> HueOffsets(b, [v]) == []
  {
    assert [v][1..] == [];
  }

  /**
   * `adapt_color`: move the hue by the factor times the mean shortest angle toward the
   * strictly larger neighbours. Only the hue changes, and it stays put when no neighbour
   * is larger.
   */
  function AdaptColor(b: Boid, view: seq<VisibleBoid>, factor: real): (r: Boid)
    ensures r.position == b.position && r.velocity == b.velocity && r.radius == b.radius
    ensures (forall k :: 0 <= k < |view| ==> view[k].boid.radius <= b.radius) ==> r.hue == b.hue
  {
    match Mean(HueOffsets(b, view))
    case Some(avg) => b.(hue := b.hue + avg * factor)
    case None => b
  }

  /** With a non-negative factor one colour step moves the hue by at most `factor * PI`. */
  lemma {:induction false} AdaptColorBounded(b: Boid, view: seq<VisibleBoid>, factor: real)
    requires 0.0 <= factor
    ensures b.hue - PI * factor <= AdaptColor(b, view, factor).hue <= b.hue + PI * factor
  {
    var offsets := HueOffsets(b, view);
    var hue := AdaptColor(b, view, factor).hue;
    if |offsets| > 0 {
      var avg := Mean(offsets).value;
      MeanWithin(offsets, -PI, PI);
      ScaledOffsetWithin(avg, factor);
      calc {
        hue;
        b.hue + avg * factor;
      <= b.hue + PI * factor;
      }
      calc {
        hue;
        b.hue + avg * factor;
      >= b.hue - PI * factor;
      }
    } else {
      MulMonotone(0.0, PI, factor);
      calc {
        hue;
        b.hue;
      <= b.hue + PI * factor;
      }
      calc {
        hue;
        b.hue;
      >= b.hue - PI * factor;
      }
    }
  }

  lemma {:induction false} ScaledOffsetWithin(offset: real, factor: real)
    requires -PI <= offset < PI
    ensures 0.0 <= factor ==> -(PI * factor) <= offset * factor <= PI * factor
  {
    if 0.0 <= factor {
      MulMonotone(-PI, offset, factor);
      MulMonotone(offset, PI, factor);
    }
  }

  /**
   * One axis of `keep_in_bounds`: from 0, add `turn` when below `lo`, then subtract `turn`
   * when above `hi`.
   */
  function AxisNudge(pos: real, lo: real, hi: real, turn: real): (d: real)
    ensures lo <= pos <= hi ==> d == 0.0
    ensures pos < lo && pos <= hi ==> d == turn
    ensures hi < pos && lo <= pos ==> d == -turn
    ensures pos < lo && hi < pos ==> d == 0.0
  {
    var d := if pos < lo then turn else 0.0;
    if pos > hi then d - turn else d
  }

  /** The turn speed: the current speed times `turn_speed_ratio`, so none at a zero ratio. */
  function TurnSpeed(b: Boid, s: Settings, root: real -> real): (r: real)
    ensures s.turn_speed_ratio == 0.0 ==> r == 0.0
  {
    Magnitude(b.velocity, root) * s.turn_speed_ratio
  }

  /**
   * The low corner of the inset rectangle: `SIZE * border_margin`, inside the simulation
   * area for a margin between 0 and 1.
   */
  function Low(s: Settings): (r: Vec2)
    ensures 0.0 <= s.border_margin <= 1.0 ==> 0.0 <= r.x <= SIZE.x && 0.0 <= r.y <= SIZE.y
  {
    SIZE.Mul(s.border_margin)
  }

  /**
   * The high corner of the inset rectangle: `SIZE - SIZE * border_margin`, as far from the
   * far edge as the low corner is from the origin, and above the low corner on both axes
   * for a margin below one half.
   */
  function High(s: Settings): (r: Vec2)
    ensures r.Add(Low(s)) == SIZE
    ensures s.border_margin < 0.5 ==> Low(s).x < r.x && Low(s).y < r.y
  {
    SIZE.Sub(Low(s))
  }

  /**
   * The velocity change `keep_in_bounds` adds, one `AxisNudge` per axis: on each axis none,
   * plus the turn speed or minus it.
   */
  function Nudge(b: Boid, s: Settings, root: real -> real): (r: Vec2)
    ensures r.x == 0.0 || r.x == TurnSpeed(b, s, root) || r.x == -TurnSpeed(b, s, root)
    ensures r.y == 0.0 || r.y == TurnSpeed(b, s, root) || r.y == -TurnSpeed(b, s, root)
  {
    var turn := TurnSpeed(b, s, root);
    Vec2(AxisNudge(b.position.x, Low(s).x, High(s).x, turn), AxisNudge(b.position.y, Low(s).y, High(s).y, turn))
  }

  /** `keep_in_bounds`: add the nudge to the velocity; position, radius and hue stay. */
  function KeepInBounds(b: Boid, s: Settings, root: real -> real): (r: Boid)
    ensures r.position == b.position && r.radius == b.radius && r.hue == b.hue
    ensures r.velocity == b.velocity.Add(Nudge(b, s, root))
  {
    b.(velocity := b.velocity.Add(Nudge(b, s, root)))
  }

  /**
   * With a margin below one half and a non-negative ratio, each axis is pushed inward:
   * up below the low threshold, down above the high one, not at all in between, and
   * strictly so when the boid moves and the ratio is positive.
   */
  lemma {:induction false} BoundaryNudgeSigns(b: Boid, s: Settings, root: real -> real)
    requires IsSqrt(root)
    requires 0.0 <= s.turn_speed_ratio
    requires s.border_margin < 0.5
    ensures var d := Nudge(b, s, root);
            var strict := 0.0 < s.turn_speed_ratio && b.velocity != Zero;
            && (b.position.x < Low(s).x ==> 0.0 <= d.x && (strict ==> 0.0 < d.x))
            && (High(s).x < b.position.x ==> d.x <= 0.0 && (strict ==> d.x < 0.0))
            && (Low(s).x <= b.position.x <= High(s).x ==> d.x == 0.0)
            && (b.position.y < Low(s).y ==> 0.0 <= d.y && (strict ==> 0.0 < d.y))
            && (High(s).y < b.position.y ==> d.y <= 0.0 && (strict ==> d.y < 0.0))
            && (Low(s).y <= b.position.y <= High(s).y ==> d.y == 0.0)
  {
    TurnSpeedSign(b, s, root);
    var turn := TurnSpeed(b, s, root);
    AxisNudgeSign(b.position.x, Low(s).x, High(s).x, turn);
    AxisNudgeSign(b.position.y, Low(s).y, High(s).y, turn);
  }

  /** No nudge without a turn speed, and none for a boid inside the margins on both axes. */
  lemma {:induction false} NudgeVanishes(b: Boid, s: Settings, root: real -> real)
    ensures s.turn_speed_ratio == 0.0 ==> Nudge(b, s, root) == Zero
    ensures Low(s).x <= b.position.x <= High(s).x && Low(s).y <= b.position.y <= High(s).y ==> Nudge(b, s, root) == Zero
  {
    var turn := TurnSpeed(b, s, root);
    if s.turn_speed_ratio == 0.0 {
      assert turn == 0.0;
    }
  }

  /** The turn speed is never negative, and positive for a moving boid and a positive ratio. */
  lemma {:induction false} TurnSpeedSign(b: Boid, s: Settings, root: real -> real)
    requires IsSqrt(root)
    requires 0.0 <= s.turn_speed_ratio
    ensures 0.0 <= TurnSpeed(b, s, root)
    ensures 0.0 < s.turn_speed_ratio && b.velocity != Zero ==> 0.0 < TurnSpeed(b, s, root)
  {
    MagnitudeSign(b.velocity, root);
    if 0.0 < s.turn_speed_ratio && b.velocity != Zero {
      MulStrictlyMonotone(0.0, Magnitude(b.velocity, root), s.turn_speed_ratio);
    } else {
      MulMonotone(0.0, Magnitude(b.velocity, root), s.turn_speed_ratio);
    }
  }

  /** With `lo < hi`, one axis is pushed up below `lo`, down above `hi`, and not at all between. */
  lemma {:induction false} AxisNudgeSign(pos: real, lo: real, hi: real, turn: real)
    requires lo < hi
    requires 0.0 <= turn
    ensures pos < lo ==> AxisNudge(pos, lo, hi, turn) == turn
    ensures hi < pos ==> AxisNudge(pos, lo, hi, turn) == -turn
    ensures lo <= pos <= hi ==> AxisNudge(pos, lo, hi, turn) == 0.0
  {
  }

  /** The velocity plus the three steering terms, before the clamp; with no neighbours it is the velocity. */
  function Steered(b: Boid, view: seq<VisibleBoid>, s: Settings): (v: Vec2)
    ensures |view| == 0 ==> v == b.velocity
  {
    b.velocity
      .Add(Coherence(b, view, s.cohesion_factor))
      .Add(Separation(view, s))
      .Add(Alignment(b, view, s.alignment_factor))
  }

  /**
   * `update_velocity`: add the three steering terms, then clamp to `max_speed`. Only the
   * velocity changes, and the new speed is at most `max_speed`.
   */
  function UpdateVelocity(b: Boid, s: Settings, view: seq<VisibleBoid>, root: real -> real): (r: Boid)
    requires 0.0 <= s.max_speed
    requires IsSqrt(root)
    ensures r.(velocity := b.velocity) == b
    ensures r.velocity.MagnitudeSquared() <= s.max_speed * s.max_speed
    ensures Magnitude(r.velocity, root) <= s.max_speed
  {
    ClampWithin(Steered(b, view, s), s.max_speed, root);
    b.(velocity := ClampMagnitude(Steered(b, view, s), s.max_speed, root))
  }

  /** The last step of `update`: move by `velocity * time_delta_ms * 0.01`. */
  function Integrate(b: Boid, dt: real): (r: Boid)
    ensures r.velocity == b.velocity && r.radius == b.radius && r.hue == b.hue
  {
    b.(position := b.position.Add(b.velocity.Mul(dt).Mul(0.01)))
  }

  /**
   * `update`: colour drift, steering and clamp, boundary nudge, then integrate the
   * position by `velocity * time_delta_ms * 0.01` with the final velocity.
   */
  function Update(b: Boid, s: Settings, view: seq<VisibleBoid>, dt: real, root: real -> real): (r: Boid)
    requires 0.0 <= s.max_speed
    requires IsSqrt(root)
    ensures r.radius == b.radius
    ensures r.hue == AdaptColor(b, view, s.color_adapt_factor).hue
  {
    Integrate(KeepInBounds(UpdateVelocity(AdaptColor(b, view, s.color_adapt_factor), s, view, root), s, root), dt)
  }

  /** The position advances by the final velocity, not the old one, scaled by `dt * 0.01`. */
  lemma {:induction false} UpdateMovesWithNewVelocity(b: Boid, s: Settings, view: seq<VisibleBoid>, dt: real, root: real -> real)
    requires 0.0 <= s.max_speed
    requires IsSqrt(root)
    ensures var r := Update(b, s, view, dt, root); r.position == b.position.Add(r.velocity.Mul(dt).Mul(0.01))
  {
  }

  /** Without boundary turning `keep_in_bounds` changes nothing. */
  lemma {:induction false} KeepInBoundsWithoutTurning(b: Boid, s: Settings, root: real -> real)
    requires s.turn_speed_ratio == 0.0
    ensures KeepInBounds(b, s, root) == b
  {
    NudgeVanishes(b, s, root);
    VectorLaws(b.velocity, b.velocity);
  }

  /**
   * A boid that sees nobody and is inside the margins on both axes only coasts: its hue
   * stays, its velocity is its old one clamped to `max_speed`, and it moves with it.
   */
  lemma {:induction false} LoneBoidCoasts(b: Boid, s: Settings, dt: real, root: real -> real)
    requires 0.0 <= s.max_speed
    requires IsSqrt(root)
    requires Low(s).x <= b.position.x <= High(s).x
    requires Low(s).y <= b.position.y <= High(s).y
    ensures var r := Update(b, s, [], dt, root);
            && r.hue == b.hue
            && r.velocity == ClampMagnitude(b.velocity, s.max_speed, root)
            && r.position == b.position.Add(r.velocity.Mul(dt).Mul(0.01))
  {
    var coloured := AdaptColor(b, [], s.color_adapt_factor);
    var steered := UpdateVelocity(coloured, s, [], root);
    NudgeVanishes(steered, s, root);
    VectorLaws(steered.velocity, steered.velocity);
  }
}

=== FILE: stats.dfy ===
/**
 * The `Mean` (Welford running average) and `WeightedMean` reducers of `src/math.rs`.
 *
 * The source writes each once, generically; Rust instantiates `Mean` at `f64` (hue
 * offsets) and at `Vec2` (velocities), and `WeightedMean` at `Vec2` (positions). Those
 * are the instances modelled here. `f64::is_normal` on the count or total weight is
 * modelled as "is not zero": exact reals have no NaN, infinity or subnormal.
 */
module Stats {
  import opened Wrappers
  import opened Vectors

  /** The plain sum of reals, the reference for the running average. */
  function Total(xs: seq<real>): real
    decreases |xs|
  {
    if |xs| == 0 then 0.0 else Total(xs[..|xs| - 1]) + xs[|xs| - 1]
  }

  /** One Welford step keeps "average times count is the sum". */
  lemma {:induction false} RunningAverageStep(avg: real, count: real, value: real)
    requires 0.0 <= count
    ensures (avg + (value - avg) / (count + 1.0)) * (count + 1.0) == avg * count + value
  {
    var c := count + 1.0;
    var d := value - avg;
    assert d / c * c == d;
    assert (avg + d / c) * c == avg * c + d / c * c;
  }

  /**
   * The fold state `(avg, count)` of `Mean::mean` at `f64` after consuming `xs` from the
   * left: `count += 1; avg += (value - avg) / count`. The running average times the count
   * is always the plain sum.
   */
  function Welford(xs: seq<real>): (r: (real, real))
    ensures r.1 == |xs| as real
    ensures r.0 * r.1 == Total(xs)
    decreases |xs|
  {
    if |xs| == 0 then (0.0, 0.0)
    else
      var (avg, count) := Welford(xs[..|xs| - 1]);
      var value := xs[|xs| - 1];
      var count' := count + 1.0;
      var avg' := avg + (value - avg) / count';
      RunningAverageStep(avg, count, value);
      (avg', count')
  }

  /** `Mean::mean` at `f64`: `None` exactly when there is no data, else the average. */
  function Mean(xs: seq<real>): (r: Option<real>)
    ensures r.None? <==> |xs| == 0
    ensures r.Some? ==> r.value * |xs| as real == Total(xs)
  {
    var (avg, count) := Welford(xs);
    if count != 0.0 then Some(avg) else None
  }

  /** A sum of values in `[lo, hi)` lies in `[n * lo, n * hi)` for `n > 0` values. */
  lemma {:induction false} TotalWithin(xs: seq<real>, lo: real, hi: real)
    requires forall k :: 0 <= k < |xs| ==> lo <= xs[k] < hi
    ensures |xs| as real * lo <= Total(xs) <= |xs| as real * hi
    ensures 0 < |xs| ==> Total(xs) < |xs| as real * hi
    decreases |xs|
  {
    if |xs| > 0 {
      var init := xs[..|xs| - 1];
      var m := |init| as real;
      TotalWithin(init, lo, hi);
      assert Total(xs) == Total(init) + xs[|xs| - 1];
      assert |xs| as real * lo == m * lo + lo;
      assert |xs| as real * hi == m * hi + hi;
    }
  }

  /** A total of non-negative values is non-negative, and zero exactly when every value is. */
  lemma {:induction false} TotalOfNonNegative(xs: seq<real>)
    requires forall k :: 0 <= k < |xs| ==> 0.0 <= xs[k]
    ensures 0.0 <= Total(xs)
    ensures Total(xs) == 0.0 <==> forall k :: 0 <= k < |xs| ==> xs[k] == 0.0
    decreases |xs|
  {
    if |xs| > 0 {
      var init := xs[..|xs| - 1];
      assert forall k :: 0 <= k < |init| ==> init[k] == xs[k];
      TotalOfNonNegative(init);
    }
  }

  /** The mean of values drawn from `[lo, hi)` is itself in `[lo, hi)`. */
  lemma {:induction false} MeanWithin(xs: seq<real>, lo: real, hi: real)
    requires forall k :: 0 <= k < |xs| ==> lo <= xs[k] < hi
    requires 0 < |xs|
    ensures Mean(xs).Some?
    ensures lo <= Mean(xs).value < hi
  {
    TotalWithin(xs, lo, hi);
    QuotientWithin(Mean(xs).value, |xs| as real, Total(xs), lo, hi);
  }

  /** If `m * n == t` with `n > 0` and `t` is in `[n * lo, n * hi)`, then `m` is in `[lo, hi)`. */
  lemma {:induction false} QuotientWithin(m: real, n: real, t: real, lo: real, hi: real)
    requires 0.0 < n
    requires m * n == t
    requires n * lo <= t < n * hi
    ensures lo <= m < hi
  {
    if m < lo {
      MulStrictlyMonotone(m, lo, n);
    }
    if hi <= m {
      MulMonotone(hi, m, n);
    }
  }

  /** The fold state of `Mean::mean` at `Vec2`: the same recurrence on vectors. */
  function WelfordVec(vs: seq<Vec2>): (r: (Vec2, real))
    ensures r.1 == |vs| as real
    ensures r.0.Mul(r.1) == Sum(vs)
    decreases |vs|
  {
    if |vs| == 0 then (Zero, 0.0)
    else
      var (avg, count) := WelfordVec(vs[..|vs| - 1]);
      var value := vs[|vs| - 1];
      var count' := count + 1.0;
      var avg' := avg.Add(value.Sub(avg).Div(count'));
      RunningAverageStep(avg.x, count, value.x);
      RunningAverageStep(avg.y, count, value.y);
      assert avg'.Mul(count') == avg.Mul(count).Add(value);
      (avg', count')
  }

  /** `Mean::mean` at `Vec2`: `None` exactly when there is no data, else the average. */
  function MeanVec(vs: seq<Vec2>): (r: Option<Vec2>)
    ensures r.None? <==> |vs| == 0
    ensures r.Some? ==> r.value.Mul(|vs| as real) == Sum(vs)
  {
    var (avg, count) := WelfordVec(vs);
    if count != 0.0 then Some(avg) else None
  }

  /** Two vectors that agree after scaling by the same non-zero factor are equal. */
  lemma {:induction false} MulCancel(a: Vec2, b: Vec2, k: real)
    requires k != 0.0
    requires a.Mul(k) == b.Mul(k)
    ensures a == b
  {
    ScalarLaws(a, a, k);
    ScalarLaws(b, b, k);
    assert a.Mul(k).Div(k) == a;
    assert b.Mul(k).Div(k) == b;
  }

  /** The mean of `n > 0` copies of `c` is `c`. */
  lemma {:induction false} MeanVecOfConstant(vs: seq<Vec2>, c: Vec2)
    requires forall k :: 0 <= k < |vs| ==> vs[k] == c
    requires 0 < |vs|
    ensures MeanVec(vs) == Some(c)
  {
    SumOfConstant(vs, c);
    MulCancel(MeanVec(vs).value, c, |vs| as real);
  }

  /** The weights of a sequence of `(value, weight)` pairs. */
  function Weights(ps: seq<(Vec2, real)>): (ws: seq<real>)
    ensures |ws| == |ps|
    ensures forall k :: 0 <= k < |ps| ==> ws[k] == ps[k].1
  {
    seq(|ps|, k requires 0 <= k < |ps| => ps[k].1)
  }

  /** Each value scaled by its weight. */
  function Products(ps: seq<(Vec2, real)>): (vs: seq<Vec2>)
    ensures |vs| == |ps|
    ensures forall k :: 0 <= k < |ps| ==> vs[k] == ps[k].0.Mul(ps[k].1)
  {
    seq(|ps|, k requires 0 <= k < |ps| => ps[k].0.Mul(ps[k].1))
  }

  /**
   * The fold state `(sum, total_weight)` of `WeightedMean::weighted_mean` at `Vec2`:
   * `sum + value * weight` and `total_weight + weight`, from `(default, 0)`.
   */
  function WeightedFold(ps: seq<(Vec2, real)>): (Vec2, real)
    decreases |ps|
  {
    if |ps| == 0 then (Zero, 0.0)
    else
      var (sum, totalWeight) := WeightedFold(ps[..|ps| - 1]);
      var (value, weight) := ps[|ps| - 1];
      (sum.Add(value.Mul(weight)), totalWeight + weight)
  }

  /** The fold state is the sum of the weighted values and the plain sum of the weights. */
  lemma {:induction false} WeightedFoldSums(ps: seq<(Vec2, real)>)
    ensures WeightedFold(ps).0 == Sum(Products(ps))
    ensures WeightedFold(ps).1 == Total(Weights(ps))
    decreases |ps|
  {
    if |ps| > 0 {
      var prefix := ps[..|ps| - 1];
      WeightedFoldSums(prefix);
      assert Products(ps)[..|ps| - 1] == Products(prefix);
      assert Weights(ps)[..|ps| - 1] == Weights(prefix);
    }
  }

  /**
   * `WeightedMean::weighted_mean` at `Vec2`: `None` exactly when the total weight is zero,
   * else the vector whose multiple by the total weight is the weighted sum.
   */
  function WeightedMean(ps: seq<(Vec2, real)>): (r: Option<Vec2>)
    ensures |ps| == 0 ==> r.None?
    ensures r.None? <==> WeightedFold(ps).1 == 0.0
    ensures r.Some? ==> r.value.Mul(WeightedFold(ps).1) == WeightedFold(ps).0
  {
    var (sum, totalWeight) := WeightedFold(ps);
    if totalWeight != 0.0 then
      ScalarLaws(sum, sum, totalWeight);
      Some(sum.Div(totalWeight))
    else
      None
  }

  lemma {:induction false} MulAddScalars(v: Vec2, a: real, b: real)
    ensures v.Mul(a).Add(v.Mul(b)) == v.Mul(a + b)
  {
    assert v.x * a + v.x * b == v.x * (a + b);
    assert v.y * a + v.y * b == v.y * (a + b);
  }

  /** When every value is `v`, the weighted sum is `v` times the total weight. */
  lemma {:induction false} WeightedSumOfConstant(ps: seq<(Vec2, real)>, v: Vec2)
    requires forall k :: 0 <= k < |ps| ==> ps[k].0 == v
    ensures WeightedFold(ps).0 == v.Mul(WeightedFold(ps).1)
    decreases |ps|
  {
    if |ps| > 0 {
      var prefix := ps[..|ps| - 1];
      WeightedSumOfConstant(prefix, v);
      var w := ps[|ps| - 1].1;
      MulAddScalars(v, WeightedFold(prefix).1, w);
    }
  }

  /** Whatever the weights, the weighted mean of copies of `v` is `v` once the total is non-zero. */
  lemma {:induction false} WeightedMeanOfConstant(ps: seq<(Vec2, real)>, v: Vec2)
    requires forall k :: 0 <= k < |ps| ==> ps[k].0 == v
    requires WeightedFold(ps).1 != 0.0
    ensures WeightedMean(ps) == Some(v)
  {
    WeightedSumOfConstant(ps, v);
    MulCancel(WeightedMean(ps).value, v, WeightedFold(ps).1);
  }

  /** A single pair with a non-zero weight has its own value as weighted mean. */
  lemma {:induction false} WeightedMeanOfOne(v: Vec2, w: real)
    requires w != 0.0
    ensures WeightedMean([(v, w)]) == Some(v)
  {
    assert WeightedFold([(v, w)]).1 == w by {
      assert [(v, w)][..0] == [];
    }
    WeightedMeanOfConstant([(v, w)], v);
  }

  /** The values of a sequence of `(value, weight)` pairs. */
  function Values(ps: seq<(Vec2, real)>): (vs: seq<Vec2>)
    ensures |vs| == |ps|
    ensures forall k :: 0 <= k < |ps| ==> vs[k] == ps[k].0
  {
    seq(|ps|, k requires 0 <= k < |ps| => ps[k].0)
  }

  /** With every weight equal to `w`, the fold is `w` times the plain sum and `n * w`. */
  lemma {:induction false} WeightedFoldUniform(ps: seq<(Vec2, real)>, w: real)
    requires forall k :: 0 <= k < |ps| ==> ps[k].1 == w
    ensures WeightedFold(ps).0 == Sum(Values(ps)).Mul(w)
    ensures WeightedFold(ps).1 == |ps| as real * w
    decreases |ps|
  {
    if |ps| > 0 {
      var prefix := ps[..|ps| - 1];
      assert forall k :: 0 <= k < |prefix| ==> prefix[k] == ps[k];
      WeightedFoldUniform(prefix, w);
      WeightedFoldStep(ps, w);
    }
  }

  lemma {:induction false} OneMoreShare(n: real, w: real)
    ensures n * w + w == (n + 1.0) * w
  {
  }

  lemma {:induction false} WeightedFoldStep(ps: seq<(Vec2, real)>, w: real)
    requires 0 < |ps| && ps[|ps| - 1].1 == w
    requires WeightedFold(ps[..|ps| - 1]).0 == Sum(Values(ps[..|ps| - 1])).Mul(w)
    requires WeightedFold(ps[..|ps| - 1]).1 == (|ps| - 1) as real * w
    ensures WeightedFold(ps).0 == Sum(Values(ps)).Mul(w)
    ensures WeightedFold(ps).1 == |ps| as real * w
  {
    var prefix := ps[..|ps| - 1];
    OneMoreShare((|ps| - 1) as real, w);
    var last := ps[|ps| - 1].0;
    var s0 := Sum(Values(prefix));
    assert Values(ps)[..|ps| - 1] == Values(prefix);
    assert Sum(Values(ps)) == s0.Add(last);
    ScalarLaws(s0, last, w);
  }

  lemma {:induction false} ProductNonZero(a: real, b: real)
    requires a != 0.0 && b != 0.0
    ensures a * b != 0.0
  {
  }

  /** Scaling by `a * b` is scaling by `a`, then by `b`. */
  lemma {:induction false} MulMul(v: Vec2, a: real, b: real)
    ensures v.Mul(a * b) == v.Mul(a).Mul(b)
  {
    assert v.x * (a * b) == v.x * a * b;
    assert v.y * (a * b) == v.y * a * b;
  }

  /** Equal non-zero weights make the weighted mean the plain (Welford) mean of the values. */
  lemma {:induction false} WeightedMeanUniform(ps: seq<(Vec2, real)>, w: real)
    requires forall k :: 0 <= k < |ps| ==> ps[k].1 == w
    requires w != 0.0
    requires 0 < |ps|
    ensures WeightedMean(ps) == MeanVec(Values(ps))
  {
    WeightedFoldUniform(ps, w);
    var n := |ps| as real;
    ProductNonZero(n, w);
    var r := WeightedMean(ps).value;
    var m := MeanVec(Values(ps)).value;
    MulMul(r, n, w);
    MulCancel(r.Mul(n), Sum(Values(ps)), w);
    MulCancel(r, m, n);
  }
}

=== FILE: vectors.dfy ===
/**
 * The two-dimensional vector of `src/math.rs` over exact reals, its operators,
 * its `Sum` fold and `clamp_magnitude`.
 *
 * Dafny has no square root on reals, so `f64::sqrt` enters the model as a parameter
 * `root`; `IsSqrt(root)` states that it is the exact square root, which IEEE 754's
 * correctly rounded `squareRoot` rounds.
 */
module Vectors {

  /** A two-dimensional vector; the operators mirror `Neg`, `Add`, `Sub`, `Mul<f64>` and `Div<f64>`. */
  datatype Vec2 = Vec2(x: real, y: real) {

    function Neg(): Vec2 {
      Vec2(-x, -y)
    }

    function Add(rhs: Vec2): Vec2 {
      Vec2(x + rhs.x, y + rhs.y)
    }

    function Sub(rhs: Vec2): Vec2 {
      Vec2(x - rhs.x, y - rhs.y)
    }

    function Mul(k: real): Vec2 {
      Vec2(x * k, y * k)
    }

    /** Division by a scalar; exact reals have no infinities, so the divisor must not be zero. */
    function Div(k: real): Vec2
      requires k != 0.0
    {
      Vec2(x / k, y / k)
    }

    /** `magnitude_squared`. */
    function MagnitudeSquared(): real {
      x * x + y * y
    }
  }

  /** `Vec2::default()`. */
  const Zero: Vec2 := Vec2(0.0, 0.0)

  /** `root` is the non-negative square root on every non-negative argument. */
  ghost predicate IsSqrt(root: real -> real) {
    forall a :: 0.0 <= a ==> 0.0 <= root(a) && root(a) * root(a) == a
  }

  /** `Vec2::magnitude`: the square root of the squared magnitude, so never negative. */
  function Magnitude(v: Vec2, root: real -> real): (r: real)
    ensures IsSqrt(root) ==> 0.0 <= r
  {
    root(v.MagnitudeSquared())
  }

  /** The operators behave as the vector-space operations they stand for. */
  lemma {:induction false} VectorLaws(v: Vec2, w: Vec2)
    ensures v.Sub(w) == v.Add(w.Neg())
    ensures v.Sub(w).Add(w) == v
    ensures v.Sub(w) == Zero <==> v == w
    ensures v.Add(v.Neg()) == Zero
    ensures v.Add(Zero) == v && v.Mul(1.0) == v
    ensures v.Neg().MagnitudeSquared() == v.MagnitudeSquared()
  {
  }

  /** Division undoes multiplication, and `Mul` distributes over `Add`. */
  lemma {:induction false} ScalarLaws(v: Vec2, w: Vec2, k: real)
    ensures k != 0.0 ==> v.Div(k).Mul(k) == v
    ensures v.Add(w).Mul(k) == v.Mul(k).Add(w.Mul(k))
  {
    if k != 0.0 {
      assert v.x / k * k == v.x;
      assert v.y / k * k == v.y;
    }
    assert (v.x + w.x) * k == v.x * k + w.x * k;
    assert (v.y + w.y) * k == v.y * k + w.y * k;
  }

  /** Scaling by `k` scales the squared magnitude by `k * k`, which is never negative. */
  lemma {:induction false} MulMagnitudeSquared(v: Vec2, k: real)
    ensures 0.0 <= v.MagnitudeSquared()
    ensures v.Mul(k).MagnitudeSquared() == k * k * v.MagnitudeSquared()
  {
    assert (v.x * k) * (v.x * k) == k * k * (v.x * v.x);
    assert (v.y * k) * (v.y * k) == k * k * (v.y * v.y);
  }

  /** `Vec2::sum`: a left fold of `+` starting from `Vec2::default()`. */
  function Sum(vs: seq<Vec2>): (r: Vec2)
    ensures |vs| == 0 ==> r == Zero
    ensures |vs| == 1 ==> r == vs[0]
    decreases |vs|
  {
    if |vs| == 0 then Zero else Sum(vs[..|vs| - 1]).Add(vs[|vs| - 1])
  }

  /** Appending one vector adds it to the sum. */
  lemma {:induction false} SumSnoc(vs: seq<Vec2>, v: Vec2)
    ensures Sum(vs + [v]) == Sum(vs).Add(v)
  {
    assert (vs + [v])[..|vs|] == vs;
  }

  /** The sum over a concatenation is the sum of the two sums; the sum of nothing is zero. */
  lemma {:induction false} SumAppend(a: seq<Vec2>, b: seq<Vec2>)
    ensures Sum([]) == Zero
    ensures Sum(a + b) == Sum(a).Add(Sum(b))
    decreases |b|
  {
    if |b| == 0 {
      assert a + b == a;
    } else {
      var init := b[..|b| - 1];
      var last := b[|b| - 1];
      assert b == init + [last];
      assert a + b == (a + init) + [last];
      SumSnoc(a + init, last);
      SumSnoc(init, last);
      SumAppend(a, init);
    }
  }

  /** Summing `n` copies of `c` gives `c * n`. */
  lemma {:induction false} SumOfConstant(vs: seq<Vec2>, c: Vec2)
    requires forall k :: 0 <= k < |vs| ==> vs[k] == c
    ensures Sum(vs) == c.Mul(|vs| as real)
    decreases |vs|
  {
    if |vs| > 0 {
      SumOfConstant(vs[..|vs| - 1], c);
    }
  }

  /** A magnitude is within `bound` exactly when its square is within `bound` squared. */
  lemma {:induction false} WithinIffSquared(v: Vec2, root: real -> real, bound: real)
    requires IsSqrt(root)
    ensures 0.0 <= Magnitude(v, root)
    ensures Magnitude(v, root) * Magnitude(v, root) == v.MagnitudeSquared()
    ensures Magnitude(v, root) <= bound <==> 0.0 <= bound && v.MagnitudeSquared() <= bound * bound
  {
    var q := v.MagnitudeSquared();
    assert 0.0 <= q;
    var m := root(q);
    assert 0.0 <= m && m * m == q;
    if m <= bound {
      SquareMonotone(m, bound);
    } else if 0.0 <= bound {
      SquareStrict(bound, m);
    }
  }

  /** The direction of `WithinIffSquared` that bounds a magnitude. */
  lemma {:induction false} WithinBySquares(v: Vec2, root: real -> real, bound: real)
    requires IsSqrt(root)
    requires 0.0 <= bound
    requires v.MagnitudeSquared() <= bound * bound
    ensures Magnitude(v, root) <= bound
  {
    WithinIffSquared(v, root, bound);
  }

  lemma {:induction false} SquarePositive(a: real)
    requires a != 0.0
    ensures 0.0 < a * a
  {
    if a > 0.0 {
      MulStrictlyMonotone(0.0, a, a);
    } else {
      MulStrictlyMonotone(a, 0.0, -a);
    }
  }

  lemma {:induction false} SquareNonNegative(a: real)
    ensures 0.0 <= a * a
  {
    if a != 0.0 {
      SquarePositive(a);
    }
  }

  /** A non-zero vector has a positive squared magnitude. */
  lemma {:induction false} NonZeroMagnitudeSquared(v: Vec2)
    requires v != Zero
    ensures 0.0 < v.MagnitudeSquared()
  {
    if v.x != 0.0 {
      calc {
        v.MagnitudeSquared();
        v.x * v.x + v.y * v.y;
      >= { SquareNonNegative(v.y); }
        v.x * v.x;
      > { SquarePositive(v.x); }
        0.0;
      }
    } else {
      calc {
        v.MagnitudeSquared();
        v.x * v.x + v.y * v.y;
      >= { SquareNonNegative(v.x); }
        v.y * v.y;
      > { SquarePositive(v.y); }
        0.0;
      }
    }
  }

  /** A magnitude is never negative, and positive for a non-zero vector. */
  lemma {:induction false} MagnitudeSign(v: Vec2, root: real -> real)
    requires IsSqrt(root)
    ensures 0.0 <= Magnitude(v, root)
    ensures v != Zero ==> 0.0 < Magnitude(v, root)
  {
    WithinIffSquared(v, root, 0.0);
    if v != Zero {
      NonZeroMagnitudeSquared(v);
    }
  }

  lemma {:induction false} SquareMonotone(a: real, b: real)
    requires 0.0 <= a <= b
    ensures a * a <= b * b
  {
  }

  lemma {:induction false} SquareStrict(a: real, b: real)
    requires 0.0 <= a < b
    ensures a * a < b * b
  {
    calc {
      a * a;
    <= { MulMonotone(a, b, a); }
      b * a;
    == a * b;
    < { MulStrictlyMonotone(a, b, b); }
      b * b;
    }
  }

  lemma {:induction false} MulMonotone(a: real, b: real, c: real)
    requires 0.0 <= c && a <= b
    ensures a * c <= b * c
  {
  }

  lemma {:induction false} MulStrictlyMonotone(a: real, b: real, c: real)
    requires 0.0 < c && a < b
    ensures a * c < b * c
  {
  }

  /** `Vec2::clamp_magnitude`: scale down to magnitude `max` when longer than `max`. */
  function ClampMagnitude(v: Vec2, max: real, root: real -> real): (r: Vec2)
    requires 0.0 <= max
    requires IsSqrt(root)
    ensures v.MagnitudeSquared() <= max * max ==> r == v
    ensures max * max < v.MagnitudeSquared() ==> r.MagnitudeSquared() == max * max
    ensures r.MagnitudeSquared() <= max * max
    ensures r.MagnitudeSquared() <= v.MagnitudeSquared()
  {
    var mag := Magnitude(v, root);
    WithinIffSquared(v, root, max);
    if mag > max then
      ScaledToLength(v, mag, max);
      v.Div(mag).Mul(max)
    else
      v
  }

  /** The clamped vector is within `max`, both squared and as a magnitude. */
  lemma {:induction false} ClampWithin(v: Vec2, max: real, root: real -> real)
    requires 0.0 <= max
    requires IsSqrt(root)
    ensures ClampMagnitude(v, max, root).MagnitudeSquared() <= max * max
    ensures Magnitude(ClampMagnitude(v, max, root), root) <= max
  {
    WithinBySquares(ClampMagnitude(v, max, root), root, max);
  }

  /** Dividing by the length `mag` and multiplying by `max` scales by `max / mag` to length `max`. */
  lemma {:induction false} ScaledToLength(v: Vec2, mag: real, max: real)
    requires 0.0 <= max < mag
    requires mag * mag == v.MagnitudeSquared()
    ensures v.Div(mag).Mul(max) == v.Mul(max / mag)
    ensures v.Mul(max / mag).MagnitudeSquared() == max * max
  {
    var k := max / mag;
    assert k * mag == max;
    MulMagnitudeSquared(v, k);
    assert k * k * (mag * mag) == (k * mag) * (k * mag);
  }

  /** A ratio of a non-negative number to a larger one lies in `[0, 1)`, and is positive with the numerator. */
  lemma {:induction false} RatioBelowOne(a: real, b: real)
    requires 0.0 <= a < b
    ensures 0.0 <= a / b < 1.0
    ensures 0.0 < a ==> 0.0 < a / b
  {
    var k := a / b;
    assert k * b == a;
    if k < 0.0 {
      MulStrictlyMonotone(k, 0.0, b);
    }
    if 1.0 <= k {
      MulMonotone(1.0, k, b);
    }
    if 0.0 < a && k <= 0.0 {
      MulMonotone(k, 0.0, b);
    }
  }

  /**
   * Clamping keeps the direction: the result is `v` scaled by a factor in `[0, 1]`,
   * strictly below 1 when `v` was too long, and strictly positive when `max` is.
   */
  lemma {:induction false} ClampKeepsDirection(v: Vec2, max: real, root: real -> real) returns (k: real)
    requires 0.0 <= max
    requires IsSqrt(root)
    ensures 0.0 <= k <= 1.0
    ensures ClampMagnitude(v, max, root) == v.Mul(k)
    ensures max * max < v.MagnitudeSquared() ==> k < 1.0 && (0.0 < max ==> 0.0 < k)
  {
    if max * max < v.MagnitudeSquared() {
      k := ClampLong(v, max, root);
    } else {
      k := 1.0;
      VectorLaws(v, v);
    }
  }

  /** A vector longer than `max` is scaled by `max / |v|`, a factor in `[0, 1)`. */
  lemma {:induction false} ClampLong(v: Vec2, max: real, root: real -> real) returns (k: real)
    requires 0.0 <= max
    requires IsSqrt(root)
    requires max * max < v.MagnitudeSquared()
    ensures 0.0 <= k < 1.0
    ensures 0.0 < max ==> 0.0 < k
    ensures ClampMagnitude(v, max, root) == v.Mul(k)
  {
    var mag := Magnitude(v, root);
    WithinIffSquared(v, root, max);
    k := max / mag;
    ScaledToLength(v, mag, max);
    RatioBelowOne(max, mag);
  }
}

=== FILE: wrappers.dfy ===
/** The `Option` the statistics reducers return: `None` stands for "no data", never a zero value. */
module Wrappers {
  datatype Option<+T> = None | Some(value: T)
}
